=== FILE: README.md ===
# Mystery Maze: a Dafny model of maze generation and the turn engine

Mystery Maze is a small terminal game. It carves a perfect maze out of an
all-wall grid of tiles and then lets one player explore it under a fog of
war: a tile is revealed only when the player steps towards it, and the game
is won when the player stands on the exit. The repository has two near-identical
revisions of the game, `mystery_maze.py` and `maze.py`. Both hold the same
two pieces of logic, and this project models them once:

- **Maze generation** (`Mystery_Maze.__init__` with its recursive carver
  `__visit`, named `visit` in `maze.py`). The constructor normalises the
  dimensions to odd values of at least 3. It builds a grid with one shrouded,
  unvisited wall tile per coordinate. It runs recursive backtracking from
  (1,1) over the odd-coordinate lattice, and each move jumps two cells and
  carves the hallway in between. Last, it punches the exit at (1,0) and the
  entry at (width-2, height-1), both as revealed path tiles.
- **The turn step** (`Game.__take_step`, named `make_move` in `maze.py`) and
  the game loop's win test. A step offsets the position by one cell. Leaving
  the grid is a plain failure. An in-bounds destination is always revealed,
  and the step succeeds, moving the player, exactly when it is a path tile.

The two revisions name things differently: `maze.py`'s `Tile.carved`,
`entrance`, `visit` and `make_move` are `mystery_maze.py`'s
`Maze_Tile.path`, `entry`, `__visit` and `__take_step`. The model uses the
`mystery_maze.py` names. The table below cites each member once, from either file.

Layout:

- `tiles.dfy`, module `Tiles`: coordinates, directions, tiles, the
  coordinate-keyed grid (`map<Coord, Tile>`, the source's dict), grid
  construction, and walks over path tiles (`Reaches`).
- `generator.dfy`, module `Generator`: normalisation, the lattice, the
  eligible-direction list, the carver `Visit`, the carving phase `Carve`,
  the entry/exit `Puncture`, and the constructor `Generate`.
- `play.dfy`, module `Play`: `TakeStep`, the session (`Start`, `Turn`, `Won`),
  the game loop `GameLoop` over a sequence of keystrokes, and its reference
  `Replay`, which takes every turn with no win test.

`random.choice` is modelled as an oracle `pick: nat -> nat`. The k-th choice
made during generation takes `eligible[pick(k) % |eligible|]`. Any choice
sequence comes from some oracle, so every property is proved for every
sequence of random choices. The carver is a method that threads an immutable
grid value through its recursion instead of mutating a shared dict. It
terminates because the set of unvisited lattice cells shrinks strictly with
each recursive call and with each loop iteration.

The maze is perfect. Take the lattice cells as nodes and the carved hallways
as edges. The generated maze carves no pillar, that is no tile with two even
coordinates (`Generate`), so every hallway of it joins two lattice cells
(`HallwaysOnLattice`). The puncture adds no hallway (`PunctureKeepsTree`).
Every lattice cell is connected to (1,1) through path tiles, and there is
exactly one hallway fewer than there are lattice cells (`Generate`), that is
((width-1)/2) * ((height-1)/2) - 1 hallways (`TreeSize`). A connected graph
with |nodes| - 1 edges is a tree.

## Model

| member | source | states |
|---|---|---|
| `Tiles.Step` | mystery_maze.py:468-477 | A step moves exactly one cell, in the named direction (North decreases y, East increases x). |
| `Tiles.InitGrid` | mystery_maze.py:74-79 | The initial grid has exactly one tile per (x,y) in [0,width)x[0,height), that is width*height tiles. Each tile carries its own coordinates and is a shrouded, unvisited wall. |
| `Tiles.RectSize` | maze.py:103-106 | The constructor's nested loops cover exactly width*height coordinates. |
| `Generator.NormalizeDim` | mystery_maze.py:58-72 | The normalised dimension is the least odd number that is at least 3 and at least the input. An input that is already odd and at least 3 is unchanged. |
| `Generator.Guard` | mystery_maze.py:127-137 | From an in-bounds cell, each of the four guards (`y>1`, `y<height-2`, `x>1`, `x<width-2`) keeps the neighbour two cells away inside the grid. |
| `Generator.JumpGuards` | maze.py:151-161 | From a lattice cell of an odd-sized grid, each guard holds exactly when the neighbour two cells away is also a lattice cell. |
| `Generator.EligibleMembers` | maze.py:149-161 | A direction is in the list exactly when its guard holds and its neighbour is unvisited. |
| `Generator.Eligible` | mystery_maze.py:121-139 | Every listed direction leads to an in-bounds, unvisited cell. From a lattice cell, the list holds exactly the directions to unvisited lattice neighbours, and it is empty exactly when the cell is a dead end. |
| `Generator.MarkCell` | mystery_maze.py:112-117 | Marking a fresh lattice cell carved and visited adds exactly that cell to the visited set, carves no hallway, and keeps the carving invariant. |
| `Generator.CarveHallway` | mystery_maze.py:150-167 | The hallway towards an unvisited neighbour was not carved before. Carving it adds exactly that one hallway, between the current cell and the neighbour, visits nothing and keeps every other hallway between visited cells. |
| `Generator.Visit` | mystery_maze.py:100-171 | Each call visits its own cell and only unvisited lattice cells, and it keeps every open tile open. On return every cell it visited is a dead end and is joined to its start cell by path tiles. The hallways then number the visited cells minus one and each joins two visited cells: the carving is a tree. One random draw is consumed per newly visited cell other than the start. Path tiles stay inside the border, and no pillar is carved. |
| `Generator.ClosedKept` | maze.py:163-166 | A dead end stays a dead end as more cells are visited. |
| `Generator.CellVisited` | mystery_maze.py:139-144 | If (1,1) is visited and every visited cell is a dead end, then every lattice cell is visited. |
| `Generator.LatticeSize` | maze.py:108-110 | The lattice the carver visits has ((width-1)/2)*((height-1)/2) cells. |
| `Generator.TreeSize` | mystery_maze.py:81-85 | A finished carving, with one hallway fewer than lattice cells, has ((width-1)/2) * ((height-1)/2) - 1 hallways. |
| `Generator.HallwaysOnLattice` | maze.py:173-188 | In any grid whose path tiles each have an odd coordinate (no pillar), every carved tile off the lattice lies between two lattice cells, so each hallway joins two lattice cells. Carving grids and generated mazes are such grids. |
| `Generator.DescentKept` | maze.py:190-191 | After the recursive visit returns, every cell visited since the call began, other than the current one, is a dead end, and every such cell is joined to the current cell. The cells this descent visited are joined through `next` and the hallway just carved. The cells visited earlier keep the joins they already had. |
| `Generator.Carve` | mystery_maze.py:81-85 | When the top-level call from (1,1) returns, the visited cells are exactly the lattice and every lattice cell is path. Every lattice cell is connected to (1,1), and there is one hallway fewer than there are lattice cells. Before the puncture every border tile is still a wall and no tile is revealed. |
| `Generator.Puncture` | mystery_maze.py:87-98 | Afterwards the exit is (1,0) and the entry is (width-2, height-1), and both are path and revealed. Every other tile is unchanged. |
| `Generator.PunctureKeepsTree` | maze.py:113-123 | The puncture keeps the carved tree intact, and it joins the entry and the exit to it. |
| `Generator.PunctureCarvesNoPillar` | maze.py:113-123 | The entry (width-2, height-1) and the exit (1,0) both have an odd x, so after the puncture every path tile still has an odd coordinate. |
| `Generator.Generate` | mystery_maze.py:51-98 | The maze has normalised odd dimensions and width*height tiles. Entry and exit sit at their fixed places as revealed path tiles, and every other tile is shrouded. The border is wall except at the entry and exit, and no pillar (a tile with two even coordinates) is carved. Every lattice cell is path and connected to (1,1), there is one hallway fewer than there are lattice cells, and the exit can be walked to from the entry. |
| `Play.TakeStep` | mystery_maze.py:460-496 | An out-of-bounds destination is a failure, with the position and the maze unchanged. An in-bounds destination is revealed, and the step succeeds exactly when it is a path tile. The position changes only on success, and then to the destination. No other tile changes, and no reveal is undone. |
| `Play.Start` | mystery_maze.py:223-228 | A new game starts on the entry tile of a fresh maze, with the dimensions normalised and the exit at (1,0). The entry and the exit are revealed path tiles, and they are the only revealed tiles. The border is wall except at those two openings, no pillar is carved, every lattice cell is a path tile, and the hallways number one fewer than the lattice cells. Every lattice cell is connected to (1,1), and the exit can be walked to from the start. The game is not yet won. |
| `Play.StartDefault` | mystery_maze.py:209-226 | The default game is 17 by 9 and starts at (15,8). |
| `Play.Turn` | mystery_maze.py:351-355 | A key that is not an arrow changes nothing, and neither does an arrow pointing off the grid. An arrow pointing at an in-bounds tile reveals that tile, and the player moves onto it exactly when it is a path tile. Otherwise the player stays put. No other tile changes. A turn keeps the layout, keeps reveals, and keeps the player on a revealed path tile. |
| `Play.PlayKeepsLayout` | maze.py:444-474 | Over any sequence of turns, path tiles and dimensions never change, and a revealed tile is never shrouded again. The player always stands on a revealed path tile. |
| `Play.PlayStopsAtWin` | mystery_maze.py:363-366 | The loop stops at the first turn whose position equals the exit coordinates. Any input after that has no effect. |
| `Play.Won` | mystery_maze.py:363 | The win test: the player's position equals the exit's coordinates. `Play.PlayIsFirstWin` shows that the game loop ends on the first turn after which this holds. |
| `Play.GameLoop` | mystery_maze.py:320-366 | The game loop. A game that ends without a win has taken every turn of the input, exactly as `Play.Replay` (all turns, no win test) does. |
| `Play.PlayIsFirstWin` | maze.py:444-474 | The loop's result is the replay of some prefix of the inputs. That prefix ends in a win unless it is the whole input, and no shorter non-empty prefix is won. So the loop stops exactly at the first winning turn. |
| `Play.WalkIsPlayable` | maze.py:229-263 | Following a walk of path tiles succeeds at every step. The player ends on the walk's last tile, unless the exit was reached on the way. |
| `Play.Winnable` | maze.py:471-474 | If the exit can be walked to from a consistent session, then some sequence of keys wins the game. `Start` provides these conditions for every new game. |

## Left out

- Curses rendering is not modelled: `__display_*`, `__play_intro`, `display_grid` in `maze.py`, glyphs and colours. It is presentation through a foreign library.
- The keystroke-to-direction mapping over `curses.KEY_*` is not modelled. Its constants live in the library. The model's input is `Move(direction)` for an arrow key or `Other` for any other key.
- Time is not modelled: `time.time`, `time.sleep`, the elapsed-time display and `round`. These are wall-clock floats with no effect on game logic.
- The `Game_Line`/`Line` scripts and the intro sequence are not modelled. They are presentation text.
- The restart recursion in `__display_finish` and the `curses.wrapper(main)` bootstrap are not modelled. Each restart is simply a new `Start`.
- The distribution of `random.choice` is not modelled. It is an arbitrary oracle, and uniformity is not claimed.
- Determinism for a fixed random sequence is not stated as a lemma. `Generate` is a method whose only freedom is the oracle, so it is deterministic by construction, but Dafny cannot compare two method runs.
- Python's recursion depth limit is not modelled. The carver's recursion depth is bounded by the lattice size, which is small at the game's sizes (17x9 here, 13x7 in `maze.py`'s `start`).
- A lookup outside the grid raises a `KeyError` in the source. In the model it is a verification obligation, and every lookup is proved to be inside the grid.

## Notes on the code

- The header comment of `maze.py` says the game ends when the exit is revealed. The code ends it when the player's position equals the exit, and the model follows the code.

=== FILE: generator.dfy ===
/** Maze generation: dimension normalisation, the recursive-backtracking
    carver over the odd-coordinate lattice, and the entry/exit puncture.

    The random choice among eligible directions is an oracle `pick`: the
    k-th choice takes eligible[pick(k) % |eligible|]. Every oracle is allowed,
    so every property below holds for every sequence of random choices. */
module Generator {
  import opened Tiles

  predicate IsOdd(n: int) {
    n % 2 == 1
  }

  /** Dimension normalisation: a value below 3 becomes 3 and an even value is
      rounded up, so the result is the least odd number that is at least 3
      and at least n. */
  function NormalizeDim(n: int): (r: int)
    ensures IsOdd(r) && r >= 3 && r >= n
    ensures r == 3 || r - 2 < n
    ensures IsOdd(n) && n >= 3 ==> r == n
  {
    if n < 3 then 3
    else if n % 2 != 1 then n + 1
    else n
  }

  /** Dimensions the carver works on. */
  predicate ValidDims(width: int, height: int) {
    IsOdd(width) && width >= 3 && IsOdd(height) && height >= 3
  }

  /** Inside the outer ring of border tiles. */
  predicate Interior(c: Coord, width: int, height: int) {
    1 <= c.x <= width - 2 && 1 <= c.y <= height - 2
  }

  /** The cells the carver visits: interior cells with two odd coordinates. */
  predicate OnLattice(c: Coord, width: int, height: int) {
    Interior(c, width, height) && IsOdd(c.x) && IsOdd(c.y)
  }

  function Lattice(width: int, height: int): (r: set<Coord>)
    ensures forall c :: c in r <==> OnLattice(c, width, height)
  {
    set c | c in Rect(width, height) && OnLattice(c, width, height)
  }

  function Visited(g: Grid): (r: set<Coord>)
    ensures forall c :: c in r <==> c in g && g[c].visited
  {
    set c | c in g && g[c].visited
  }

  /** Carved interior tiles off the lattice: the hallways between lattice cells. */
  function Hallways(g: Grid, width: int, height: int): set<Coord> {
    set c | c in g && g[c].path && Interior(c, width, height) && !OnLattice(c, width, height)
  }

  /** The two lattice cells a hallway tile lies between. */
  function Ends(c: Coord): (Coord, Coord) {
    if IsOdd(c.x) then (Coord(c.x, c.y - 1), Coord(c.x, c.y + 1))
    else (Coord(c.x - 1, c.y), Coord(c.x + 1, c.y))
  }

  /** The lattice neighbour two cells away in direction d. */
  function Jump(c: Coord, d: Direction): Coord {
    Step(Step(c, d), d)
  }

  /** Every lattice neighbour of c has been visited: c is a dead end. */
  ghost predicate Closed(g: Grid, width: int, height: int, c: Coord) {
    forall d :: OnLattice(Jump(c, d), width, height) ==> Jump(c, d) in Visited(g)
  }

  /** What carving keeps true of every tile: it carries its own coordinates
      and stays shrouded, only lattice cells are visited, a lattice cell is
      carved exactly when it is visited, and a carved tile is interior and
      never a pillar (a tile with two even coordinates). */
  predicate TileOk(t: Tile, c: Coord, width: int, height: int) {
    && t.coords == c && !t.revealed
    && (t.visited ==> OnLattice(c, width, height))
    && (OnLattice(c, width, height) ==> (t.path <==> t.visited))
    && (t.path ==> Interior(c, width, height) && (IsOdd(c.x) || IsOdd(c.y)))
  }

  /** What holds of the grid throughout carving. */
  ghost predicate Carving(g: Grid, width: int, height: int) {
    && ValidDims(width, height)
    && Covers(g, width, height)
    && (forall c :: c in g ==> TileOk(g[c], c, width, height))
  }

  /** Every carved hallway lies between two cells that are visited or are c,
      the cell the carver is about to enter or is working from. */
  ghost predicate HallwaysJoin(g: Grid, width: int, height: int, c: Coord) {
    forall hall :: hall in Hallways(g, width, height) ==>
      && (Ends(hall).0 in Visited(g) || Ends(hall).0 == c)
      && (Ends(hall).1 in Visited(g) || Ends(hall).1 == c)
  }

  /** From a lattice cell, each of the carver's four guards says exactly
      that the neighbour two cells away is a lattice cell. */
  lemma JumpGuards(c: Coord, width: int, height: int)
    ensures ValidDims(width, height) && OnLattice(c, width, height) ==>
      forall d :: OnLattice(Jump(c, d), width, height) <==> Guard(c, width, height, d)
  {
    if ValidDims(width, height) && OnLattice(c, width, height) {
      forall d ensures OnLattice(Jump(c, d), width, height) <==> Guard(c, width, height, d) {
        OddShift(c.x);
        OddShift(c.y);
        OddShift(height);
        OddShift(width);
      }
    }
  }

  lemma OddShift(n: int)
    ensures IsOdd(n) <==> IsOdd(n - 2)
    ensures IsOdd(n) <==> IsOdd(n + 2)
    ensures IsOdd(n) ==> n != 2 && n != 0 && !IsOdd(n + 1) && !IsOdd(n - 1)
  {
  }

  /** The carver's bounds guard for a jump in direction d; it guarantees the
      jump target is inside the grid whenever c is. */
  predicate Guard(c: Coord, width: int, height: int, d: Direction)
    ensures Guard(c, width, height, d) && InBounds(c, width, height) ==>
      InBounds(Jump(c, d), width, height)
  {
    match d
    case North => c.y > 1
    case South => c.y < height - 2
    case West => c.x > 1
    case East => c.x < width - 2
  }

  /** [d] when the guard for d holds and the jump target is unvisited, else [].
      The visited flag is looked up only behind the guard. */
  function IfEligible(g: Grid, width: int, height: int, c: Coord, d: Direction): (r: seq<Direction>)
    requires Covers(g, width, height) && InBounds(c, width, height)
  {
    if Guard(c, width, height, d) && !g[Jump(c, d)].visited then [d] else []
  }

  lemma EligibleMembers(g: Grid, width: int, height: int, c: Coord)
    requires Covers(g, width, height) && InBounds(c, width, height)
    ensures var r := IfEligible(g, width, height, c, North) + IfEligible(g, width, height, c, South)
                   + IfEligible(g, width, height, c, West) + IfEligible(g, width, height, c, East);
      forall d :: d in r <==> Guard(c, width, height, d) && Jump(c, d) !in Visited(g)
  {
    var n, s, w, e := IfEligible(g, width, height, c, North), IfEligible(g, width, height, c, South),
                      IfEligible(g, width, height, c, West), IfEligible(g, width, height, c, East);
    var r := n + s + w + e;
    forall d ensures d in r <==> Guard(c, width, height, d) && Jump(c, d) !in Visited(g) {
      assert d in r <==> d in n || d in s || d in w || d in e;
      match d
      case North =>
      case South =>
      case West =>
      case East =>
    }
  }

  /** The directions whose lattice neighbour is unvisited, in the order
      North, South, West, East. */
  function Eligible(g: Grid, width: int, height: int, c: Coord): (r: seq<Direction>)
    requires Covers(g, width, height) && InBounds(c, width, height)
    ensures forall d :: d in r ==> InBounds(Jump(c, d), width, height) && Jump(c, d) !in Visited(g)
    ensures ValidDims(width, height) && OnLattice(c, width, height) ==>
      forall d :: d in r <==> OnLattice(Jump(c, d), width, height) && Jump(c, d) !in Visited(g)
    ensures ValidDims(width, height) && OnLattice(c, width, height) ==>
      (|r| == 0 <==> Closed(g, width, height, c))
  {
    EligibleMembers(g, width, height, c);
    JumpGuards(c, width, height);
    IfEligible(g, width, height, c, North) + IfEligible(g, width, height, c, South)
    + IfEligible(g, width, height, c, West) + IfEligible(g, width, height, c, East)
  }

  /** Marking a fresh lattice cell carved and visited. */
  lemma MarkCell(g: Grid, width: int, height: int, c: Coord)
    requires Carving(g, width, height)
    requires OnLattice(c, width, height) && c !in Visited(g)
    requires HallwaysJoin(g, width, height, c)
    ensures var g1 := g[c := g[c].(path := true, visited := true)];
      && Carving(g1, width, height)
      && Visited(g1) == Visited(g) + {c}
      && Hallways(g1, width, height) == Hallways(g, width, height)
      && HallwaysJoin(g1, width, height, c)
      && KeepsOpen(g, g1)
  {
    var g1 := g[c := g[c].(path := true, visited := true)];
    assert Visited(g1) == Visited(g) + {c};
    assert Hallways(g1, width, height) == Hallways(g, width, height);
  }

  /** The tile between two neighbouring lattice cells is an interior,
      off-lattice tile with one odd coordinate, whose ends are exactly those
      two cells. */
  lemma HallwayBetween(c: Coord, width: int, height: int, d: Direction)
    requires OnLattice(c, width, height) && OnLattice(Jump(c, d), width, height)
    ensures Interior(Step(c, d), width, height) && !OnLattice(Step(c, d), width, height)
    ensures IsOdd(Step(c, d).x) || IsOdd(Step(c, d).y)
    ensures Ends(Step(c, d)) == (c, Jump(c, d)) || Ends(Step(c, d)) == (Jump(c, d), c)
  {
    OddShift(c.x);
    OddShift(c.y);
  }

  /** Carving the hallway from a visited cell towards an unvisited neighbour:
      the hallway is new, and it joins c to that neighbour. */
  lemma CarveHallway(g: Grid, width: int, height: int, c: Coord, d: Direction)
    requires Carving(g, width, height)
    requires HallwaysJoin(g, width, height, c)
    requires OnLattice(c, width, height) && c in Visited(g)
    requires OnLattice(Jump(c, d), width, height) && Jump(c, d) !in Visited(g)
    ensures var hall := Step(c, d);
      var g2 := g[hall := g[hall].(path := true)];
      && hall !in Hallways(g, width, height)
      && Carving(g2, width, height)
      && Visited(g2) == Visited(g)
      && Hallways(g2, width, height) == Hallways(g, width, height) + {hall}
      && HallwaysJoin(g2, width, height, Jump(c, d))
      && KeepsOpen(g, g2)
  {
    var hall, next := Step(c, d), Jump(c, d);
    var g2 := g[hall := g[hall].(path := true)];
    HallwayBetween(c, width, height, d);
    assert Visited(g2) == Visited(g);
    assert Hallways(g2, width, height) == Hallways(g, width, height) + {hall};
  }

  /** The recursive carver. It carves and marks c, then, while c has an
      unvisited lattice neighbour, draws one of them, carves the hallway to
      it and recurses into it. Returns the grid and the next draw index.
      On entry the hallways carved so far, one per visited cell, form a tree
      over the visited cells and c; on return they form a tree over the
      visited cells, every newly visited cell is a dead end joined to c,
      and one draw was made per newly visited cell other than c. */
  method Visit(g: Grid, width: int, height: int, c: Coord, pick: nat -> nat, k: nat)
    returns (g': Grid, k': nat)
    requires Carving(g, width, height)
    requires OnLattice(c, width, height) && c !in Visited(g)
    requires HallwaysJoin(g, width, height, c)
    requires |Hallways(g, width, height)| == |Visited(g)|
    ensures Carving(g', width, height)
    ensures HallwaysJoin(g', width, height, c)
    ensures c in Visited(g') && Visited(g) <= Visited(g')
    ensures KeepsOpen(g, g')
    ensures forall v :: v in Visited(g') && v !in Visited(g) ==> Closed(g', width, height, v)
    ensures forall v :: v in Visited(g') && v !in Visited(g) ==> Reaches(g', v, c)
    ensures |Hallways(g', width, height)| + 1 == |Visited(g')|
    ensures k' - k == |Visited(g')| - |Visited(g)| - 1
    decreases Lattice(width, height) - Visited(g)
  {
    MarkCell(g, width, height, c);
    g' := g[c := g[c].(path := true, visited := true)];
    k' := k;
    ReachesSelf(g', c);
    while true
      invariant Carving(g', width, height)
      invariant HallwaysJoin(g', width, height, c)
      invariant c in Visited(g') && Visited(g) <= Visited(g')
      invariant KeepsOpen(g, g')
      invariant forall v :: v in Visited(g') && v !in Visited(g) && v != c ==> Closed(g', width, height, v)
      invariant forall v :: v in Visited(g') && v !in Visited(g) ==> Reaches(g', v, c)
      invariant |Hallways(g', width, height)| + 1 == |Visited(g')|
      invariant k' - k == |Visited(g')| - |Visited(g)| - 1
      decreases Lattice(width, height) - Visited(g')
    {
      var dirs := Eligible(g', width, height, c);
      if |dirs| == 0 {
        return;
      }
      var d := dirs[pick(k') % |dirs|];
      assert d in dirs;
      var hall, next := Step(c, d), Jump(c, d);
      assert OnLattice(next, width, height) && next !in Visited(g');
      CarveHallway(g', width, height, c, d);
      var g2 := g'[hall := g'[hall].(path := true)];
      var g3, k3 := Visit(g2, width, height, next, pick, k' + 1);
      DescentKept(g, g', g3, width, height, c, hall, next);
      g', k' := g3, k3;
    }
  }

  /** After a descent into next through hall, every cell visited since g
      (other than c, which is still being worked on) is a dead end and is
      joined to c: the cells visited before the descent keep both facts, and
      the cells the descent visited reach c through next and hall. */
  lemma DescentKept(g: Grid, g': Grid, g3: Grid, width: int, height: int, c: Coord, hall: Coord, next: Coord)
    requires Visited(g') <= Visited(g3) && KeepsOpen(g', g3)
    requires forall v :: v in Visited(g') && v !in Visited(g) && v != c ==> Closed(g', width, height, v)
    requires forall v :: v in Visited(g') && v !in Visited(g) ==> Reaches(g', v, c)
    requires forall v :: v in Visited(g3) && v !in Visited(g') ==> Closed(g3, width, height, v)
    requires forall v :: v in Visited(g3) && v !in Visited(g') ==> Reaches(g3, v, next)
    requires Adjacent(next, hall) && Adjacent(hall, c) && Open(g3, hall) && Open(g3, c)
    ensures forall v :: v in Visited(g3) && v !in Visited(g) && v != c ==> Closed(g3, width, height, v)
    ensures forall v :: v in Visited(g3) && v !in Visited(g) ==> Reaches(g3, v, c)
  {
    forall v | v in Visited(g3) && v !in Visited(g) && v != c
      ensures Closed(g3, width, height, v)
    {
      if v in Visited(g') {
        ClosedKept(g', g3, width, height, v);
      }
    }
    forall v | v in Visited(g3) && v !in Visited(g)
      ensures Reaches(g3, v, c)
    {
      if v in Visited(g') {
        ReachesKept(g', g3, v, c);
      } else {
        ReachesExtend(g3, v, next, hall);
        ReachesExtend(g3, v, hall, c);
      }
    }
  }

  /** A dead end stays a dead end as more cells are visited. */
  lemma ClosedKept(g: Grid, g2: Grid, width: int, height: int, c: Coord)
    requires Closed(g, width, height, c) && Visited(g) <= Visited(g2)
    ensures Closed(g2, width, height, c)
  {
  }

  /** A visited lattice that is closed under "dead end" covers the lattice:
      every lattice cell is reached from (1,1) by steps East and South. */
  lemma {:induction false} CellVisited(g: Grid, width: int, height: int, c: Coord)
    requires Coord(1, 1) in Visited(g)
    requires forall v :: v in Visited(g) ==> Closed(g, width, height, v)
    requires OnLattice(c, width, height)
    ensures c in Visited(g)
    decreases c.x + c.y
  {
    if c.x > 1 {
      var p := Coord(c.x - 2, c.y);
      CellVisited(g, width, height, p);
      assert Jump(p, East) == c;
    } else if c.y > 1 {
      var p := Coord(c.x, c.y - 2);
      CellVisited(g, width, height, p);
      assert Jump(p, South) == c;
    }
  }

  /** The lattice cells of one row. */
  function LatticeRow(width: int, y: int): (r: set<Coord>)
    ensures forall c :: c in r <==> c.y == y && IsOdd(c.x) && 1 <= c.x <= width - 2
  {
    set c | c in Row(width, y) && IsOdd(c.x) && 1 <= c.x <= width - 2
  }

  lemma {:induction false} LatticeRowSize(width: int, y: int)
    requires IsOdd(width) && width >= 3
    ensures |LatticeRow(width, y)| == (width - 1) / 2
    decreases width
  {
    if width > 3 {
      OddShift(width);
      LatticeRowSize(width - 2, y);
      assert LatticeRow(width, y) == LatticeRow(width - 2, y) + {Coord(width - 2, y)};
    } else {
      assert LatticeRow(width, y) == {Coord(1, y)};
    }
  }

  /** The lattice grows by one lattice row when the height grows by two. */
  lemma LatticeGrows(width: int, height: int)
    requires ValidDims(width, height) && height > 3
    ensures Lattice(width, height) == Lattice(width, height - 2) + LatticeRow(width, height - 2)
    ensures Lattice(width, height - 2) !! LatticeRow(width, height - 2)
  {
    OddShift(height);
  }

  /** The lattice of a width x height grid has ((width-1)/2) * ((height-1)/2) cells. */
  lemma {:induction false} LatticeSize(width: int, height: int)
    requires ValidDims(width, height)
    ensures |Lattice(width, height)| == ((width - 1) / 2) * ((height - 1) / 2)
    decreases height
  {
    var n := (width - 1) / 2;
    LatticeRowSize(width, height - 2);
    OddShift(height);
    if height > 3 {
      LatticeSize(width, height - 2);
      LatticeGrows(width, height);
      var rows := (height - 1) / 2;
      assert (height - 3) / 2 == rows - 1;
      assert |Lattice(width, height)| == n * (rows - 1) + n;
      MulPred(n, rows);
    } else {
      assert Lattice(width, height) == LatticeRow(width, height - 2);
      assert (height - 1) / 2 == 1;
    }
  }

  /** A grid whose path tiles all have an odd coordinate (no pillar is
      carved) has every hallway between two lattice cells. Carving grids and
      generated mazes are such grids. */
  lemma HallwaysOnLattice(g: Grid, width: int, height: int)
    requires ValidDims(width, height)
    requires forall c :: c in g && g[c].path ==> IsOdd(c.x) || IsOdd(c.y)
    ensures forall hall :: hall in Hallways(g, width, height) ==>
      OnLattice(Ends(hall).0, width, height) && OnLattice(Ends(hall).1, width, height)
  {
    forall hall | hall in Hallways(g, width, height)
      ensures OnLattice(Ends(hall).0, width, height) && OnLattice(Ends(hall).1, width, height)
    {
      OddShift(hall.x);
      OddShift(hall.y);
      OddShift(width);
      OddShift(height);
    }
  }

  /** The carved tree's size in the grid's own terms: a finished carving of
      a width x height grid has ((width-1)/2) * ((height-1)/2) - 1 hallways. */
  lemma TreeSize(g: Grid, width: int, height: int)
    requires ValidDims(width, height)
    requires |Hallways(g, width, height)| + 1 == |Lattice(width, height)|
    ensures |Hallways(g, width, height)| == ((width - 1) / 2) * ((height - 1) / 2) - 1
  {
    LatticeSize(width, height);
  }

  /** The carving phase: a fresh grid, then Visit from (1,1). Afterwards
      every lattice cell is visited and connected to (1,1), and there is one
      hallway fewer than there are lattice cells. */
  method Carve(width: int, height: int, pick: nat -> nat) returns (g: Grid)
    requires ValidDims(width, height)
    ensures Carving(g, width, height)
    ensures Visited(g) == Lattice(width, height)
    ensures |Hallways(g, width, height)| + 1 == |Lattice(width, height)|
    ensures forall c :: c in Lattice(width, height) ==> Reaches(g, c, Coord(1, 1))
  {
    var g0 := InitGrid(width, height);
    assert Visited(g0) == {};
    assert Hallways(g0, width, height) == {};
    var k;
    g, k := Visit(g0, width, height, Coord(1, 1), pick, 0);
    forall c | OnLattice(c, width, height)
      ensures c in Visited(g)
    {
      CellVisited(g, width, height, c);
    }
    assert Visited(g) == Lattice(width, height);
  }

  /** A generated maze: the grid plus its entry and exit coordinates. */
  datatype Maze = Maze(width: int, height: int, grid: Grid, entry: Coord, exit: Coord)

  /** Force a tile to be a revealed path tile. */
  function Punch(g: Grid, c: Coord): Grid
    requires c in g
  {
    g[c := g[c].(path := true, revealed := true)]
  }

  /** Opens the exit at the top left border and the entry at the bottom
      right border. Only those two tiles change, and only their path and
      revealed flags. */
  function Puncture(g: Grid, width: int, height: int): (m: Maze)
    requires ValidDims(width, height) && Covers(g, width, height)
    ensures m.width == width && m.height == height
    ensures m.exit == Coord(1, 0) && m.entry == Coord(width - 2, height - 1)
    ensures m.grid.Keys == g.Keys
    ensures forall c :: c in g && c != m.entry && c != m.exit ==> m.grid[c] == g[c]
    ensures forall c :: c in g && (c == m.entry || c == m.exit) ==>
      m.grid[c] == g[c].(path := true, revealed := true)
  {
    var exit, entry := Coord(1, 0), Coord(width - 2, height - 1);
    Maze(width, height, Punch(Punch(g, exit), entry), entry, exit)
  }

  /** Tiles on the outer ring of the grid. */
  predicate OnBorder(c: Coord, width: int, height: int) {
    InBounds(c, width, height) && !Interior(c, width, height)
  }

  /** The maze constructor: normalise the dimensions, carve, puncture. */
  method Generate(width: int, height: int, pick: nat -> nat) returns (m: Maze)
    ensures m.width == NormalizeDim(width) && m.height == NormalizeDim(height)
    ensures ValidDims(m.width, m.height)
    ensures m.grid.Keys == Rect(m.width, m.height) && |m.grid| == m.width * m.height
    ensures forall c :: c in m.grid ==> m.grid[c].coords == c
    ensures m.exit == Coord(1, 0) && m.entry == Coord(m.width - 2, m.height - 1)
    ensures m.grid[m.exit].path && m.grid[m.exit].revealed
    ensures m.grid[m.entry].path && m.grid[m.entry].revealed
    ensures forall c :: c in m.grid && c != m.entry && c != m.exit ==> !m.grid[c].revealed
    ensures forall c :: OnBorder(c, m.width, m.height) && c != m.entry && c != m.exit ==>
      !m.grid[c].path
    ensures forall c :: c in Lattice(m.width, m.height) ==> m.grid[c].path
    ensures forall c :: c in m.grid && m.grid[c].path ==> IsOdd(c.x) || IsOdd(c.y)
    ensures |Hallways(m.grid, m.width, m.height)| == |Lattice(m.width, m.height)| - 1
    ensures forall c :: c in Lattice(m.width, m.height) ==> Reaches(m.grid, c, Coord(1, 1))
    ensures Reaches(m.grid, m.entry, m.exit)
  {
    var w, h := NormalizeDim(width), NormalizeDim(height);
    var g := Carve(w, h, pick);
    m := Puncture(g, w, h);
    PunctureKeepsTree(g, w, h);
    PunctureCarvesNoPillar(g, w, h);
    RectSize(w, h);
  }

  /** The entry and exit both have an odd x, so the puncture carves no pillar. */
  lemma PunctureCarvesNoPillar(g: Grid, width: int, height: int)
    requires Carving(g, width, height)
    ensures var m := Puncture(g, width, height);
      forall c :: c in m.grid && m.grid[c].path ==> IsOdd(c.x) || IsOdd(c.y)
  {
    var m := Puncture(g, width, height);
    OddShift(width);
    forall c | c in m.grid && m.grid[c].path
      ensures IsOdd(c.x) || IsOdd(c.y)
    {
      if c != m.entry && c != m.exit {
        assert TileOk(g[c], c, width, height);
      }
    }
  }

  /** The puncture only adds open tiles, so the carved tree survives it, and
      the entry and exit both join it: the entry sits below the lattice
      cell (width-2, height-2) and the exit above (1,1). */
  lemma PunctureKeepsTree(g: Grid, width: int, height: int)
    requires Carving(g, width, height)
    requires forall c :: c in Lattice(width, height) ==> Reaches(g, c, Coord(1, 1))
    ensures var m := Puncture(g, width, height);
      && Hallways(m.grid, width, height) == Hallways(g, width, height)
      && (forall c :: c in Lattice(width, height) ==> Reaches(m.grid, c, Coord(1, 1)))
      && Reaches(m.grid, m.entry, m.exit)
  {
    var m := Puncture(g, width, height);
    assert KeepsOpen(g, m.grid);
    assert Hallways(m.grid, width, height) == Hallways(g, width, height);
    forall c | c in Lattice(width, height)
      ensures Reaches(m.grid, c, Coord(1, 1))
    {
      ReachesKept(g, m.grid, c, Coord(1, 1));
    }
    var corner := Coord(width - 2, height - 2);
    OddShift(width);
    OddShift(height);
    assert corner in Lattice(width, height);
    ReachesSelf(m.grid, m.entry);
    ReachesExtend(m.grid, m.entry, m.entry, corner);
    ReachesTrans(m.grid, m.entry, corner, Coord(1, 1));
    ReachesExtend(m.grid, m.entry, Coord(1, 1), m.exit);
  }
}

=== FILE: play.dfy ===
/** The turn engine and the game session: one step of the player with the
    fog-of-war reveal, the win test, and the game loop over a stream of
    inputs. */
module Play {
  import opened Tiles
  import opened Generator

  /** What a step reports: whether it succeeded, the player's position
      afterwards, and the maze with the destination revealed. */
  datatype StepResult = StepResult(success: bool, position: Coord, maze: Maze)

  /** The maze's grid covers exactly its own rectangle. */
  predicate Shaped(m: Maze) {
    Covers(m.grid, m.width, m.height)
  }

  /** The same maze up to revealed flags: dimensions, entry, exit, the set of
      tiles and every tile's other fields agree. */
  ghost predicate SameLayout(m: Maze, m2: Maze) {
    && m2.width == m.width && m2.height == m.height
    && m2.entry == m.entry && m2.exit == m.exit
    && m2.grid.Keys == m.grid.Keys
    && (forall c :: c in m.grid ==> m2.grid[c] == m.grid[c].(revealed := m2.grid[c].revealed))
  }

  /** No tile that was revealed becomes shrouded again. */
  ghost predicate RevealsKept(m: Maze, m2: Maze)
    requires m2.grid.Keys == m.grid.Keys
  {
    forall c :: c in m.grid && m.grid[c].revealed ==> m2.grid[c].revealed
  }

  /** One step from pos in direction d. Leaving the grid is a plain failure
      that changes nothing. Otherwise the destination tile is revealed, the
      step succeeds exactly when that tile is a path tile, and only then does
      the player move onto it. */
  function TakeStep(m: Maze, pos: Coord, d: Direction): (r: StepResult)
    requires Shaped(m)
    ensures SameLayout(m, r.maze) && RevealsKept(m, r.maze)
    ensures !InBounds(Step(pos, d), m.width, m.height) ==>
      !r.success && r.position == pos && r.maze == m
    ensures InBounds(Step(pos, d), m.width, m.height) ==>
      && r.maze.grid[Step(pos, d)].revealed
      && (r.success <==> m.grid[Step(pos, d)].path)
    ensures r.success ==> r.position == Step(pos, d) && Open(m.grid, r.position)
    ensures !r.success ==> r.position == pos
    ensures forall c :: c in m.grid && c != Step(pos, d) ==> r.maze.grid[c] == m.grid[c]
  {
    var dest := Step(pos, d);
    if !InBounds(dest, m.width, m.height) then
      StepResult(false, pos, m)
    else
      var tile := m.grid[dest].(revealed := true);
      var success := tile.path;
      StepResult(success, if success then dest else pos, m.(grid := m.grid[dest := tile]))
  }

  /** The game session: the maze being played and the player's position. */
  datatype Session = Session(maze: Maze, position: Coord)

  /** The win test of the game loop. */
  predicate Won(s: Session) {
    s.position == s.maze.exit
  }

  /** The player stands on a revealed path tile of a well-shaped maze. */
  ghost predicate Consistent(s: Session) {
    Shaped(s.maze) && Open(s.maze.grid, s.position) && s.maze.grid[s.position].revealed
  }

  /** A new game: a fresh maze, with the player at its entry. */
  method Start(width: int, height: int, pick: nat -> nat) returns (s: Session)
    ensures s.maze.width == NormalizeDim(width) && s.maze.height == NormalizeDim(height)
    ensures s.position == s.maze.entry == Coord(s.maze.width - 2, s.maze.height - 1)
    ensures s.maze.exit == Coord(1, 0)
    ensures s.maze.exit in s.maze.grid && s.maze.grid[s.maze.exit].path && s.maze.grid[s.maze.exit].revealed
    ensures Consistent(s) && !Won(s)
    ensures forall c :: c in s.maze.grid && c != s.maze.entry && c != s.maze.exit ==>
      !s.maze.grid[c].revealed
    ensures forall c :: OnBorder(c, s.maze.width, s.maze.height) && c != s.maze.entry && c != s.maze.exit ==>
      !s.maze.grid[c].path
    ensures forall c :: c in Lattice(s.maze.width, s.maze.height) ==> s.maze.grid[c].path
    ensures forall c :: c in s.maze.grid && s.maze.grid[c].path ==> IsOdd(c.x) || IsOdd(c.y)
    ensures |Hallways(s.maze.grid, s.maze.width, s.maze.height)| == |Lattice(s.maze.width, s.maze.height)| - 1
    ensures forall c :: c in Lattice(s.maze.width, s.maze.height) ==> Reaches(s.maze.grid, c, Coord(1, 1))
    ensures Reaches(s.maze.grid, s.position, s.maze.exit)
  {
    var m := Generate(width, height, pick);
    s := Session(m, m.entry);
  }

  /** The default game size of the session's start. */
  method StartDefault(pick: nat -> nat) returns (s: Session)
    ensures s.maze.width == 17 && s.maze.height == 9
    ensures s.position == Coord(15, 8) && Consistent(s) && !Won(s)
  {
    s := Start(17, 9, pick);
  }

  /** One keystroke of the game loop: an arrow key or any other key. */
  datatype Input = Move(d: Direction) | Other

  /** One turn: an arrow key takes a step and the player lands on the step's
      reported position; any other key does nothing. */
  function Turn(s: Session, i: Input): (r: Session)
    requires Shaped(s.maze)
    ensures SameLayout(s.maze, r.maze) && RevealsKept(s.maze, r.maze)
    ensures Consistent(s) ==> Consistent(r)
    ensures r.position == s.position || (i.Move? && r.position == Step(s.position, i.d))
    ensures i.Other? ==> r == s
    ensures i.Move? && !InBounds(Step(s.position, i.d), s.maze.width, s.maze.height) ==> r == s
    ensures i.Move? && InBounds(Step(s.position, i.d), s.maze.width, s.maze.height) ==>
      && r.maze.grid[Step(s.position, i.d)].revealed
      && (r.position == Step(s.position, i.d) <==> s.maze.grid[Step(s.position, i.d)].path)
    ensures i.Move? ==> forall c :: c in s.maze.grid && c != Step(s.position, i.d) ==>
      r.maze.grid[c] == s.maze.grid[c]
  {
    match i
    case Move(d) =>
      var o := TakeStep(s.maze, s.position, d);
      Session(o.maze, o.position)
    case Other => s
  }

  /** Every turn of the inputs in order, with no win test: the reference
      the game loop is compared against. */
  function Replay(s: Session, inputs: seq<Input>): Session
    requires Shaped(s.maze)
    decreases |inputs|
  {
    if |inputs| == 0 then s else Replay(Turn(s, inputs[0]), inputs[1..])
  }

  /** The game loop: take turns until the player stands on the exit or the
      inputs run out. A loop that never wins has taken every turn. */
  function GameLoop(s: Session, inputs: seq<Input>): (r: Session)
    requires Shaped(s.maze)
    ensures Won(r) || r == Replay(s, inputs)
    decreases |inputs|
  {
    if |inputs| == 0 then s
    else
      var s1 := Turn(s, inputs[0]);
      if Won(s1) then s1 else GameLoop(s1, inputs[1..])
  }

  /** Replaying a non-empty prefix is the first turn followed by the rest of it. */
  lemma ReplayPrefix(s: Session, inputs: seq<Input>, i: nat)
    requires Shaped(s.maze) && 0 < i <= |inputs|
    ensures Replay(s, inputs[..i]) == Replay(Turn(s, inputs[0]), inputs[1..][..i - 1])
  {
    assert inputs[..i][0] == inputs[0];
    assert inputs[..i][1..] == inputs[1..][..i - 1];
  }

  /** The loop stops exactly at the first won turn: its result is the replay
      of some prefix, that prefix is won unless it is all of the inputs, and
      no shorter non-empty prefix is won. */
  lemma {:induction false} PlayIsFirstWin(s: Session, inputs: seq<Input>)
    requires Shaped(s.maze)
    ensures exists j ::
      && 0 <= j <= |inputs| && GameLoop(s, inputs) == Replay(s, inputs[..j])
      && (j < |inputs| ==> Won(Replay(s, inputs[..j])))
      && (forall i :: 0 < i < j ==> !Won(Replay(s, inputs[..i])))
    decreases |inputs|
  {
    if |inputs| == 0 {
      assert GameLoop(s, inputs) == Replay(s, inputs[..0]);
    } else {
      var s1 := Turn(s, inputs[0]);
      ReplayPrefix(s, inputs, 1);
      assert Replay(s, inputs[..1]) == s1;
      if Won(s1) {
        assert GameLoop(s, inputs) == Replay(s, inputs[..1]);
      } else {
        PlayIsFirstWin(s1, inputs[1..]);
        var j :|
          && 0 <= j <= |inputs[1..]| && GameLoop(s1, inputs[1..]) == Replay(s1, inputs[1..][..j])
          && (j < |inputs[1..]| ==> Won(Replay(s1, inputs[1..][..j])))
          && (forall i :: 0 < i < j ==> !Won(Replay(s1, inputs[1..][..i])));
        ReplayPrefix(s, inputs, j + 1);
        forall i | 0 < i < j + 1
          ensures !Won(Replay(s, inputs[..i]))
        {
          ReplayPrefix(s, inputs, i);
        }
        assert GameLoop(s, inputs) == Replay(s, inputs[..j + 1]);
      }
    }
  }

  /** Across any number of turns the layout is fixed, reveals are never
      undone, and the player stays on a revealed path tile. */
  lemma {:induction false} PlayKeepsLayout(s: Session, inputs: seq<Input>)
    requires Shaped(s.maze)
    ensures SameLayout(s.maze, GameLoop(s, inputs).maze)
    ensures RevealsKept(s.maze, GameLoop(s, inputs).maze)
    ensures Consistent(s) ==> Consistent(GameLoop(s, inputs))
    decreases |inputs|
  {
    if |inputs| > 0 {
      var s1 := Turn(s, inputs[0]);
      if !Won(s1) {
        PlayKeepsLayout(s1, inputs[1..]);
      }
    }
  }

  /** Once the loop has seen a winning turn it takes no further input. */
  lemma {:induction false} PlayStopsAtWin(s: Session, inputs: seq<Input>, j: nat)
    requires Shaped(s.maze)
    requires 0 < j <= |inputs|
    requires Won(GameLoop(s, inputs[..j]))
    ensures GameLoop(s, inputs) == GameLoop(s, inputs[..j])
    decreases j
  {
    var s1 := Turn(s, inputs[0]);
    assert inputs[..j][0] == inputs[0];
    if !Won(s1) {
      assert inputs[..j][1..] == inputs[1..][..j - 1];
      if j > 1 {
        PlayStopsAtWin(s1, inputs[1..], j - 1);
      }
    }
  }

  /** The arrow keys that follow a walk tile by tile. */
  function Moves(p: seq<Coord>): (r: seq<Input>)
    requires forall i :: 0 <= i < |p| - 1 ==> Adjacent(p[i], p[i + 1])
    ensures |r| == if |p| == 0 then 0 else |p| - 1
    ensures forall i :: 0 <= i < |r| ==> r[i].Move? && Step(p[i], r[i].d) == p[i + 1]
  {
    if |p| <= 1 then []
    else [Move(DirectionTo(p[0], p[1]))] + Moves(p[1..])
  }

  /** Following a walk of path tiles succeeds at every step: the player ends
      on the walk's last tile unless the exit was reached on the way. */
  lemma {:induction false} WalkIsPlayable(s: Session, p: seq<Coord>)
    requires Consistent(s) && !Won(s)
    requires IsWalk(s.maze.grid, p) && p[0] == s.position
    ensures var r := GameLoop(s, Moves(p));
      Won(r) || r.position == p[|p| - 1]
    decreases |p|
  {
    if |p| > 1 {
      var ms := Moves(p);
      var s1 := Turn(s, ms[0]);
      assert s1.position == p[1];
      if !Won(s1) {
        assert ms[1..] == Moves(p[1..]);
        assert IsWalk(s1.maze.grid, p[1..]);
        WalkIsPlayable(s1, p[1..]);
      }
    }
  }

  /** A game whose exit can be walked to can be won: some sequence of arrow
      keys brings the player onto the exit. Start provides exactly these
      conditions for every new game. */
  lemma Winnable(s: Session)
    requires Consistent(s) && !Won(s)
    requires Reaches(s.maze.grid, s.position, s.maze.exit)
    ensures exists inputs :: Won(GameLoop(s, inputs))
  {
    var p :| IsWalk(s.maze.grid, p) && p[0] == s.position && p[|p| - 1] == s.maze.exit;
    WalkIsPlayable(s, p);
    PlayKeepsLayout(s, Moves(p));
    assert Won(GameLoop(s, Moves(p)));
  }
}

=== FILE: tiles.dfy ===
/** The grid model of the Mystery Maze game: coordinates, the four cardinal
    directions, tiles, the coordinate-keyed grid that holds them, and walks
    over the carved (path) tiles of a grid. */
module Tiles {

  /** A grid coordinate. x grows eastwards, y grows southwards (row 0 is the top). */
  datatype Coord = Coord(x: int, y: int)

  /** The four cardinal directions, used both for carving and for moving. */
  datatype Direction = North | South | West | East

  /** Two coordinates one orthogonal unit apart. */
  predicate Adjacent(a: Coord, b: Coord) {
    || (a.x == b.x && (a.y == b.y + 1 || b.y == a.y + 1))
    || (a.y == b.y && (a.x == b.x + 1 || b.x == a.x + 1))
  }

  /** The coordinate one cell away from c in direction d. */
  function Step(c: Coord, d: Direction): (r: Coord)
    ensures Adjacent(c, r)
    ensures d == North ==> r.x == c.x && r.y < c.y
    ensures d == South ==> r.x == c.x && r.y > c.y
    ensures d == West ==> r.y == c.y && r.x < c.x
    ensures d == East ==> r.y == c.y && r.x > c.x
  {
    match d
    case North => Coord(c.x, c.y - 1)
    case South => Coord(c.x, c.y + 1)
    case West => Coord(c.x - 1, c.y)
    case East => Coord(c.x + 1, c.y)
  }

  /** The direction that leads from a to an adjacent b. */
  function DirectionTo(a: Coord, b: Coord): (d: Direction)
    requires Adjacent(a, b)
    ensures Step(a, d) == b
  {
    if b.y < a.y then North
    else if b.y > a.y then South
    else if b.x < a.x then West
    else East
  }

  /** A maze tile. A fresh tile is a shrouded, unvisited wall. */
  datatype Tile = Tile(coords: Coord, revealed: bool, path: bool, visited: bool)

  function Shrouded(c: Coord): Tile {
    Tile(c, false, false, false)
  }

  /** The grid maps each coordinate to its tile. */
  type Grid = map<Coord, Tile>

  predicate InBounds(c: Coord, width: int, height: int) {
    0 <= c.x < width && 0 <= c.y < height
  }

  /** All coordinates of a width x height grid. */
  function Rect(width: int, height: int): (r: set<Coord>)
    ensures forall c :: c in r <==> InBounds(c, width, height)
  {
    var r := set x, y | 0 <= x < width && 0 <= y < height :: Coord(x, y);
    assert forall c: Coord :: InBounds(c, width, height) ==> Coord(c.x, c.y) in r;
    r
  }

  /** A grid with exactly one tile per coordinate of the width x height rectangle. */
  predicate Covers(g: Grid, width: int, height: int) {
    g.Keys == Rect(width, height)
  }

  /** The coordinates of row y, columns 0 up to but excluding width. */
  function Row(width: int, y: int): (r: set<Coord>)
    ensures forall c :: c in r <==> 0 <= c.x < width && c.y == y
  {
    var r := set x | 0 <= x < width :: Coord(x, y);
    assert forall c: Coord :: 0 <= c.x < width && c.y == y ==> Coord(c.x, y) in r;
    r
  }

  lemma {:induction false} RowSize(width: nat, y: int)
    ensures |Row(width, y)| == width
  {
    if width > 0 {
      RowSize(width - 1, y);
      assert Row(width, y) == Row(width - 1, y) + {Coord(width - 1, y)};
    }
  }

  /** A width x height grid has exactly width * height coordinates. */
  lemma {:induction false} RectSize(width: nat, height: nat)
    ensures |Rect(width, height)| == width * height
  {
    if height > 0 {
      RectSize(width, height - 1);
      RowSize(width, height - 1);
      RectGrows(width, height);
      assert |Rect(width, height)| == width * (height - 1) + width;
      MulPred(width, height);
    }
  }

  /** A grid one row taller adds the coordinates of that row. */
  lemma RectGrows(width: int, height: int)
    requires height > 0
    ensures Rect(width, height) == Rect(width, height - 1) + Row(width, height - 1)
    ensures Rect(width, height - 1) !! Row(width, height - 1)
  {
  }

  /** One factor less: the step both size inductions take. */
  lemma MulPred(a: int, b: int)
    ensures a * b == a * (b - 1) + a
  {
  }

  /** Grid construction: one fresh tile per coordinate, filled column by
      column like the nested loops of the constructor. */
  method InitGrid(width: int, height: int) returns (g: Grid)
    requires 0 <= width && 0 <= height
    ensures Covers(g, width, height)
    ensures |g| == width * height
    ensures forall c :: c in g ==> g[c] == Shrouded(c)
  {
    g := map[];
    var x := 0;
    while x < width
      invariant 0 <= x <= width
      invariant forall c :: c in g <==> InBounds(c, x, height)
      invariant forall c :: c in g ==> g[c] == Shrouded(c)
    {
      var y := 0;
      while y < height
        invariant 0 <= y <= height
        invariant forall c :: c in g <==> InBounds(c, x, height) || (c.x == x && 0 <= c.y < y)
        invariant forall c :: c in g ==> g[c] == Shrouded(c)
      {
        g := g[Coord(x, y) := Shrouded(Coord(x, y))];
        y := y + 1;
      }
      x := x + 1;
    }
    assert g.Keys == Rect(width, height);
    RectSize(width, height);
  }

  /** A tile the player can stand on. */
  predicate Open(g: Grid, c: Coord) {
    c in g && g[c].path
  }

  /** A non-empty sequence of pairwise adjacent open tiles. */
  ghost predicate IsWalk(g: Grid, p: seq<Coord>) {
    && |p| >= 1
    && (forall i :: 0 <= i < |p| ==> Open(g, p[i]))
    && (forall i :: 0 <= i < |p| - 1 ==> Adjacent(p[i], p[i + 1]))
  }

  /** b can be walked to from a over open tiles. */
  ghost predicate Reaches(g: Grid, a: Coord, b: Coord) {
    exists p :: IsWalk(g, p) && p[0] == a && p[|p| - 1] == b
  }

  /** Grid g2 keeps every tile of g and every open tile open. */
  ghost predicate KeepsOpen(g: Grid, g2: Grid) {
    forall c :: Open(g, c) ==> Open(g2, c)
  }

  lemma ReachesSelf(g: Grid, a: Coord)
    requires Open(g, a)
    ensures Reaches(g, a, a)
  {
    assert IsWalk(g, [a]);
  }

  /** A walk can be extended by an adjacent open tile. */
  lemma ReachesExtend(g: Grid, a: Coord, b: Coord, c: Coord)
    requires Reaches(g, a, b) && Adjacent(b, c) && Open(g, c)
    ensures Reaches(g, a, c)
  {
    var p :| IsWalk(g, p) && p[0] == a && p[|p| - 1] == b;
    var q := p + [c];
    assert forall i :: 0 <= i < |q| - 1 ==> q[i] == p[i];
    assert IsWalk(g, q);
  }

  /** Walks compose end to start. */
  lemma ReachesTrans(g: Grid, a: Coord, b: Coord, c: Coord)
    requires Reaches(g, a, b) && Reaches(g, b, c)
    ensures Reaches(g, a, c)
  {
    var p :| IsWalk(g, p) && p[0] == a && p[|p| - 1] == b;
    var q :| IsWalk(g, q) && q[0] == b && q[|q| - 1] == c;
    var r := p + q[1..];
    assert forall i :: 0 <= i < |p| ==> r[i] == p[i];
    assert forall i :: |p| <= i < |r| ==> r[i] == q[i - |p| + 1];
    assert IsWalk(g, r);
  }

  /** Walks survive any change that keeps open tiles open. */
  lemma ReachesKept(g: Grid, g2: Grid, a: Coord, b: Coord)
    requires Reaches(g, a, b) && KeepsOpen(g, g2)
    ensures Reaches(g2, a, b)
  {
    var p :| IsWalk(g, p) && p[0] == a && p[|p| - 1] == b;
    assert IsWalk(g2, p);
  }
}
